=== FILE: README.md ===
# Texture atlas packer — a Dafny model

`AtlasGenerator` packs rectangular images into one or more fixed-size atlas
textures. Every image is offered to a binary space-partitioning tree per
atlas (`Texture.Node`). Images are offered largest area first; equal areas
go by name. An image goes into the first existing atlas that accepts it.
When none accepts it, a fresh atlas is opened. Each atlas keeps a manifest
(`rectangleMap`) from each image's logical name to its rectangle.

This project models that core as pure functions over immutable data and
proves what it guarantees:

- `Geometry`: integer rectangles, containment, disjointness, and the two
  straight cuts a split can make.
- `Packer`: the tree (`Node`), `Insert` with its leaf rules (occupied, does
  not fit, exact fit, split along the axis with more slack), and the
  well-formedness invariant that the two children of a split tile their
  parent.
- `Atlas`: `Texture` with its constructor and `AddImage`, plus the
  invariant `Valid`. It says every manifest entry is a placement of the
  tree, inside the canvas, clear of every other entry.
- `Ordering`: `ImageNameComparator` together with a model of Java's
  `String.compareTo` (character order as listed under "Left out"). They
  are proved equal to an independent
  lexicographic order and shown to be a strict total order. `SetAdd` is
  `TreeSet.add` under that comparator.
- `Naming`: the logical name of a file: the path up to its last `.`, with
  backslashes turned into slashes.
- `Driver`: `Run` after its directory check. It ingests the files into the
  sorted set, aborting on an oversized image. Then it places the images
  atlas by atlas. The end-to-end lemma shows that, with distinct names,
  every image lands in exactly one atlas, at its own size, inside the
  canvas and clear of the other entries there.

Reading the directory, decoding pixels and writing the output are I/O. A
run's input is therefore the list of decoded files (`SourceFile`: path,
width, height) in the order the directory walk returns them.

Three 60×60 images on 100×100 canvases need three atlases: two such
squares never share a 100×100 canvas under any placement, since 60 + 60
exceeds 100 along both axes. Under this split rule, the first image cuts
the canvas into a 100×60 strip (itself split into the image and a 40×60
leaf) and a 100×40 strip, and neither strip can take a second 60×60 image.
`Packer.SecondSixtySquareRefused` and
`Driver.SixtySquaresTakeOneAtlasEach` prove the outcome.

## Model

| member | source | states |
|---|---|---|
| Geometry.TilesPartition | AtlasGenerator.java:215-227 | the two children a split creates lie inside the parent, share no pixel, and together cover every pixel of it; their areas add up to the parent's |
| Geometry.DisjointIffNoCommonPixel | AtlasGenerator.java:257-258 | for non-empty rectangles, separation along an axis is the same as having no pixel in common, so disjoint manifest entries draw onto disjoint pixels |
| Packer.SplitLeaf | AtlasGenerator.java:215-227 | the cut tiles the leaf; it is vertical exactly when the horizontal slack exceeds the vertical slack; child 0 is then as wide as the image (vertical) or as tall (horizontal) |
| Packer.InsertFree | AtlasGenerator.java:204-229 | on a free leaf: a too-small leaf refuses and stays a free leaf; a fitting image is placed at the leaf's top-left corner at its own size and becomes the only placement in the leaf's subtree, which stays well-formed and covers the same rectangle; the free leaves left behind are exactly `Remainder`: none for an exact fit, otherwise the part of the image's strip beside or below it (if any) and then the rest of the leaf across the cut; termination by the leaf's width plus height |
| Packer.RemainderFillsLeaf | AtlasGenerator.java:215-229 | the free space an image leaves in a leaf is exactly the leaf minus the image: at most two non-empty pieces inside the leaf, disjoint from the image and from each other, whose areas plus the image's equal the leaf's |
| Packer.Insert | AtlasGenerator.java:184-231 | the root rectangle is unchanged; a refusal leaves the tree unchanged; an acceptance returns a rectangle of exactly the image's size and adds exactly that rectangle to the tree's placements |
| Packer.InsertRefusesIffNoRoom | AtlasGenerator.java:184-231 | the search over the tree is complete: an insertion is refused exactly when no free leaf anywhere in the tree is large enough for the image |
| Packer.LeafCases | AtlasGenerator.java:199-229 | a leaf refuses if and only if it is occupied or too small in some dimension; an exact fit occupies the leaf itself without children; any other fit splits the leaf and places the image at its origin, cutting vertically when the horizontal slack is larger and horizontally otherwise, with child 0 the strip at the origin as wide or as tall as the image and child 1 the rest of the leaf, left free |
| Packer.InternalNodeOrder | AtlasGenerator.java:186-196 | child 0 is tried first: if it accepts, its placement is the answer and lies in child 0, the new node has child 0's insertion result as child 0 and the old child 1; if it refuses, the new node keeps child 0 and has child 1's insertion result as child 1, whose answer is returned, lying in child 1 |
| Packer.ExactFitConsumesLeaf | AtlasGenerator.java:209-213 | an exact fit places the image on the whole leaf, and a second image of the same size is then refused |
| Packer.PlacementsWithin | AtlasGenerator.java:215-229 | in a tree whose splits tile their parents, every occupied leaf lies inside the root |
| Packer.PlacementsDisjoint | AtlasGenerator.java:215-229 | in such a tree, the occupied leaves are pairwise disjoint |
| Packer.InsertSound | AtlasGenerator.java:184-231 | an insertion keeps the tree well-formed, and an accepted image lies inside the root and is disjoint from every earlier placement |
| Packer.SecondSixtySquareRefused | AtlasGenerator.java:215-229 | a 60×60 image on a free 100×100 leaf lands at the origin and leaves a tree that refuses a second 60×60 image |
| Atlas.NewAtlas | AtlasGenerator.java:239-246 | a new texture satisfies the atlas invariant, has the requested size, an empty manifest and no placements |
| Atlas.AddImage | AtlasGenerator.java:248-262 | the image is accepted exactly when the root's `Insert` places it; then the tree is the one `Insert` returns and the new manifest entry is the placed rectangle; the canvas size never changes; a refusal leaves the atlas unchanged; an acceptance adds exactly the new name to the manifest, records a rectangle of the image's size under it, and keeps every other entry |
| Atlas.AddImageKeepsValid | AtlasGenerator.java:248-261 | adding an image under a new name keeps the invariant: each entry a placement of the tree, inside the canvas, entries pairwise disjoint |
| Atlas.FreshAtlasAccepts | AtlasGenerator.java:85-86 | a fresh atlas accepts an image if and only if it fits the canvas, and then records it at the origin as the only entry |
| Atlas.FullCanvasRefusesMore | AtlasGenerator.java:209-213 | an image as large as the canvas is accepted and fills it: any later image is refused |
| Atlas.SixtySquaresNeedOwnAtlas | AtlasGenerator.java:248-255 | a free 100×100 atlas accepts any 60×60 image, and after that refuses every further 60×60 image |
| Ordering.CompareNamesIsLexicographic | AtlasGenerator.java:141 | `compareTo` is negative exactly when the first name is a proper prefix of the second or has the smaller character at the first difference |
| Ordering.CompareNames | AtlasGenerator.java:141 | `compareTo` is zero exactly when the names are equal |
| Ordering.CompareNamesSwap | AtlasGenerator.java:141 | swapping the names negates `compareTo` |
| Ordering.CompareNamesTransitive | AtlasGenerator.java:141 | `compareTo` below zero is transitive |
| Ordering.Compare | AtlasGenerator.java:128-144 | the comparator is negative exactly when the first image has more pixels, or as many pixels and a lexicographically smaller name; zero exactly when pixel counts and names are equal; positive exactly in the mirrored case |
| Ordering.PrecedesIsStrictTotalOrder | AtlasGenerator.java:128-144 | the packing order is irreflexive, transitive and asymmetric, and any two images are ordered unless their pixel counts and names coincide |
| Ordering.SetAdd | AtlasGenerator.java:53 | `TreeSet.add` keeps the set in ascending order; an image whose area and name match an element is dropped; any other image is added exactly once, nothing else changing |
| Naming.LastIndexOf | AtlasGenerator.java:51 | the result is -1 when the character does not occur, and otherwise a position holding it with no occurrence after it |
| Naming.SlashSeparators | AtlasGenerator.java:51 | same length, every backslash replaced by a slash and every other character kept |
| Naming.DeriveName | AtlasGenerator.java:51 | there is no name exactly when the path has no dot; otherwise the name is the path before its last dot, with backslashes replaced by slashes, and contains no backslash |
| Driver.PlaceFrom | AtlasGenerator.java:70-88 | the image goes to the first atlas from the given position that accepts it, every atlas before it having refused and nothing else changing; when all refuse, a fresh atlas holding the image is appended |
| Driver.Place | AtlasGenerator.java:70-88 | one pass of the inner loop over all atlases: the image goes to the first atlas that accepts it, every earlier atlas having refused and every other one unchanged; when all refuse, a fresh atlas holding the image is appended |
| Driver.OnlyAtlasAccepts | AtlasGenerator.java:74-80 | when the only open atlas accepts an image, the list becomes that atlas with the image added |
| Driver.RefusedEverywhereOpensAtlas | AtlasGenerator.java:83-88 | when every open atlas refuses an image, the list grows by one fresh atlas holding it and keeps the others unchanged |
| Driver.PackAll | AtlasGenerator.java:68-89 | placing images never shrinks the list of atlases |
| Driver.Pack | AtlasGenerator.java:62-89 | packing starts from one atlas, so at least one atlas results |
| Driver.PlaceExtends | AtlasGenerator.java:70-88 | placing an image with a new name that fits the canvas changes exactly one atlas, possibly a new last one: it gains that name at the image's size and stays valid, and every other atlas is unchanged |
| Driver.PlaceRecords | AtlasGenerator.java:68-89 | one placement extends the record: every atlas valid and of the canvas size, manifest names exactly the images placed, each in one atlas only, at its own size, no atlas after the first empty |
| Driver.PackAllRecords | AtlasGenerator.java:68-89 | placing a sequence of fitting images with distinct names extends the record by all of them |
| Driver.PackRecords | AtlasGenerator.java:62-89 | packing fitting images with distinct names yields atlases that record each image exactly once, at its own size, inside the canvas and clear of the other entries of its atlas |
| Driver.SixtySquaresTakeOneAtlasEach | AtlasGenerator.java:62-89 | three 60×60 images on 100×100 canvases produce three atlases |
| Driver.Problem | AtlasGenerator.java:45-51 | a file has a problem exactly when it is wider or taller than the canvas or its path contains no dot; an oversized file is reported as too large, naming its path and size |
| Driver.FirstProblem | AtlasGenerator.java:45-51 | no file has a problem exactly when all pass; otherwise the problem reported is that of a file all of whose predecessors pass |
| Driver.ImagesOf | AtlasGenerator.java:51-53 | one image per file, in file order, carrying the derived name and the file's size |
| Driver.AddAll | AtlasGenerator.java:37-53 | adding images to the sorted set keeps it ascending, keeps every element, adds nothing but the new images, and afterwards holds an element with each new image's key |
| Driver.Ingest | AtlasGenerator.java:39-60 | ingestion fails exactly when some file has a problem, and then reports the first such file's problem; otherwise every path has a name and the result is every file's image added to the set in file order |
| Driver.Run | AtlasGenerator.java:37-89 | the run succeeds exactly when every file passes the checks, fails with the first file's problem otherwise, and on success produces at least one atlas |
| Driver.SortedHoldsEveryImage | AtlasGenerator.java:37-53 | with distinct names the sorted set drops nothing: it holds exactly the images, under distinct names |
| Driver.RunPacksEveryFile | AtlasGenerator.java:37-89 | when every file passes and no two files share a derived name, the run succeeds, the sorted set holds exactly the files' images, and the atlases record each of them exactly once, at its own size, inside the canvas and clear of the other entries of its atlas |
| Driver.OversizedImageAbortsRun | AtlasGenerator.java:45-48 | a first file larger than the canvas stops the run with a size error naming that file, whatever files follow |

## Left out

- Directory handling (`GetImageFiles`, the `.png` and directory filters, the existence check of lines 26-30) and decoding with `ImageIO`: a run's input is the list of decoded files. A file whose reading throws an `IOException` is reported and skipped (lines 56-59); it simply does not appear in that list. A file no image reader recognises (say, a text file named `x.png`) makes `ImageIO.read` return null, and line 45 then throws a `NullPointerException` that the `catch` does not handle, ending the program; the model has no such file and does not cover that crash.
- Pixels: the `BufferedImage` of each atlas and `drawImage`. Only the rectangles are modelled; `Geometry.DisjointIffNoCommonPixel` states why disjoint rectangles draw onto disjoint pixels.
- Output: `Texture.Write`, the PNG file and the text manifest. The manifest is the map `Atlas.manifest`, which a `TreeMap` iterates in key order.
- The command line (`main`, argument parsing) and every console message.
- Canvas sizes are positive (`Dim`). With a zero or negative size, and at least one file, the first file is at least 1×1 and so fails the size check of line 45, ending the run before any atlas exists; with no files, the `BufferedImage` constructor at line 64 throws. The model does not cover either outcome.
- Driver.Ingest: a path without any `.` makes `substring(0, -1)` throw an uncaught exception in the source; the model reports it as the error `NoExtension`. The `.png` filter keeps such paths out in practice.
- Ordering.Compare: does not model Java `int` overflow of `width * height` or of `area2 - area1`. Areas are mathematical integers, which agrees with the source whenever each area stays below 2^31.
- Ordering.CompareNames: compares Unicode scalar values. Java compares UTF-16 code units. Surrogate pairs keep their order among themselves, so the two orders differ only when, at the first difference, a character above U+FFFF meets a character in U+E000–U+FFFF: Java puts the former first (its high surrogate lies in U+D800–U+DBFF), code-point order the latter.
- Atlas.AddImage: replaces an entry when the name is already present, as `TreeMap.put` does. The validity and end-to-end lemmas require distinct names, because two files whose paths give the same name (for example `a.png` and `a.PNG`, both admitted by the case-insensitive `.png` filter) would collide.
- Driver.PlaceFrom: the Java loop keeps using the same `Texture` object after a refused `AddImage`. The model passes the refused atlas on unchanged, which `Atlas.AddImage` proves is the same thing.

=== FILE: atlas.dfy ===
/** One output atlas (`Texture` in AtlasGenerator.java): a fixed canvas, the
    packer tree over it and the manifest mapping image names to the
    rectangles they were given. Pixel data is not modelled. */
module Atlas {
  import opened Options
  import opened Geometry
  import opened Packer

  datatype Atlas = Atlas(width: Dim, height: Dim, root: Node, manifest: map<string, Rect>)

  /** The outcome of `AddImage`: whether the image was placed, and the atlas
      afterwards. */
  datatype Added = Added(ok: bool, atlas: Atlas)

  function Canvas(a: Atlas): Rect
  {
    Rect(0, 0, a.width, a.height)
  }

  /** Manifest entries under different names never overlap. */
  predicate ManifestDisjoint(m: map<string, Rect>)
  {
    forall k1, k2 :: k1 in m && k2 in m && k1 != k2 ==> Disjoint(m[k1], m[k2])
  }

  /** What holds of every atlas the driver builds: the tree covers the
      canvas and is well-formed, the manifest has one entry per placement,
      every entry is a placement inside the canvas, and entries are
      pairwise disjoint. */
  predicate Valid(a: Atlas)
  {
    && a.root.rect == Canvas(a)
    && WellFormed(a.root)
    && |Placements(a.root)| == |a.manifest|
    && (forall k :: k in a.manifest ==> a.manifest[k] in Placements(a.root))
    && (forall k :: k in a.manifest ==> Within(a.manifest[k], Canvas(a)))
    && ManifestDisjoint(a.manifest)
  }

  /** The `Texture` constructor: a single free leaf over the whole canvas
      and an empty manifest. */
  function NewAtlas(width: Dim, height: Dim): (a: Atlas)
    ensures Valid(a)
    ensures a.width == width && a.height == height
    ensures a.manifest == map[] && Placements(a.root) == []
  {
    Atlas(width, height, Leaf(Rect(0, 0, width, height), false), map[])
  }

  /** `Texture.AddImage`: insert into the root; on success record
      `name -> rect` (overwriting an entry of the same name, as
      `TreeMap.put` does) and report `true`; on failure report `false` and
      change nothing. */
  function AddImage(a: Atlas, name: string, w: Dim, h: Dim): (res: Added)
    ensures res.ok <==> Insert(a.root, w, h).placement.Some?
    ensures res.ok ==> res.atlas.root == Insert(a.root, w, h).node
    ensures res.atlas.width == a.width && res.atlas.height == a.height
    ensures !res.ok ==> res.atlas == a
    ensures res.ok ==> res.atlas.manifest.Keys == a.manifest.Keys + {name}
    ensures res.ok ==> res.atlas.manifest[name] == Insert(a.root, w, h).placement.value
    ensures res.ok ==> res.atlas.manifest[name].w == w && res.atlas.manifest[name].h == h
    ensures res.ok ==> forall k :: k in a.manifest && k != name ==> res.atlas.manifest[k] == a.manifest[k]
  {
    var ins := Insert(a.root, w, h);
    if ins.placement.None? then
      Added(false, a)
    else
      Added(true, a.(root := ins.node, manifest := a.manifest[name := ins.placement.value]))
  }

  /** Adding an image under a new name keeps an atlas valid: the new entry
      lies inside the canvas and overlaps no earlier entry. */
  lemma AddImageKeepsValid(a: Atlas, name: string, w: Dim, h: Dim)
    requires Valid(a) && name !in a.manifest
    ensures Valid(AddImage(a, name, w, h).atlas)
  {
    var ins := Insert(a.root, w, h);
    InsertSound(a.root, w, h);
    if ins.placement.Some? {
      var p := ins.placement.value;
      var m := a.manifest[name := p];
      var oldPs, newPs := Placements(a.root), Placements(ins.node);
      assert AddImage(a, name, w, h).atlas == a.(root := ins.node, manifest := m);
      assert multiset(newPs) == multiset(oldPs) + multiset{p};
      assert |newPs| == |oldPs| + 1 by {
        assert |newPs| == |multiset(newPs)|;
      }
      assert |m| == |a.manifest| + 1 by {
        assert m.Keys == a.manifest.Keys + {name};
      }
      forall k | k in m
        ensures m[k] in newPs
      {
        if k != name {
          assert m[k] in multiset(oldPs);
        }
        assert m[k] in multiset(newPs);
      }
      PlacementsWithin(a.root);
      forall k1, k2 | k1 in m && k2 in m && k1 != k2
        ensures Disjoint(m[k1], m[k2])
      {
        if k1 == name {
          assert m[k2] == a.manifest[k2] && m[k2] in oldPs;
        } else if k2 == name {
          assert m[k1] == a.manifest[k1] && m[k1] in oldPs;
          DisjointSymmetric(p, m[k1]);
        }
      }
    }
  }

  /** A fresh atlas accepts an image exactly when the image fits the canvas,
      and then places it at the origin: the insertion that opens a new atlas
      cannot fail once oversized images are rejected. */
  lemma FreshAtlasAccepts(width: Dim, height: Dim, name: string, w: Dim, h: Dim)
    ensures AddImage(NewAtlas(width, height), name, w, h).ok <==> w <= width && h <= height
    ensures w <= width && h <= height ==>
      AddImage(NewAtlas(width, height), name, w, h).atlas.manifest == map[name := Rect(0, 0, w, h)]
  {
  }

  /** An image as large as the canvas fills it: every later image is
      refused. */
  lemma FullCanvasRefusesMore(width: Dim, height: Dim, name: string, other: string, w: Dim, h: Dim)
    ensures var full := AddImage(NewAtlas(width, height), name, width, height);
      full.ok && !AddImage(full.atlas, other, w, h).ok
  {
  }

  /** A 100x100 atlas with nothing placed yet accepts a 60x60 image,
      which leaves it holding `SixtyTree`. The sizes are parameters fixed
      by `requires` rather than literals, so that the solver does not
      unfold `Insert` on constant arguments. */
  lemma FirstSixtySquareAccepted(a: Atlas, name: string, w: Dim, h: Dim)
    requires a.root == Leaf(Rect(0, 0, 100, 100), false) && w == 60 && h == 60
    ensures var added := AddImage(a, name, w, h);
      added.ok && added.atlas.root == SixtyTree()
  {
    SixtySquareSplitsCanvas(a.root.rect, w, h);
  }

  /** An atlas holding `SixtyTree` refuses every further 60x60 image. */
  lemma SecondSixtySquareRejected(a: Atlas, name: string, w: Dim, h: Dim)
    requires a.root == SixtyTree() && w == 60 && h == 60
    ensures !AddImage(a, name, w, h).ok
  {
    SixtyTreeIsFull(w, h);
  }

  /** Of three 60x60 images offered to 100x100 atlases, the first fills
      one atlas and the second fills another: neither has room for a
      later image. */
  lemma SixtySquaresNeedOwnAtlas(a: Atlas, n1: string, n2: string, n3: string, w: Dim, h: Dim)
    requires a.root == Leaf(Rect(0, 0, 100, 100), false) && w == 60 && h == 60
    ensures AddImage(a, n1, w, h).ok && AddImage(a, n2, w, h).ok
    ensures !AddImage(AddImage(a, n1, w, h).atlas, n2, w, h).ok
    ensures !AddImage(AddImage(a, n1, w, h).atlas, n3, w, h).ok
    ensures !AddImage(AddImage(a, n2, w, h).atlas, n3, w, h).ok
  {
    FirstSixtySquareAccepted(a, n1, w, h);
    FirstSixtySquareAccepted(a, n2, w, h);
    SecondSixtySquareRejected(AddImage(a, n1, w, h).atlas, n2, w, h);
    SecondSixtySquareRejected(AddImage(a, n1, w, h).atlas, n3, w, h);
    SecondSixtySquareRejected(AddImage(a, n2, w, h).atlas, n3, w, h);
  }
}

=== FILE: driver.dfy ===
/** The placement driver (`AtlasGenerator.Run`): ingest the image files in
    sorted order, rejecting the run when one is larger than the canvas,
    then offer each image to the atlases in creation order and open a new
    atlas when none takes it. */
module Driver {
  import opened Options
  import opened Geometry
  import opened Packer
  import opened Atlas
  import opened Ordering
  import opened Naming

  /** The outcome of placing one image: the atlas list afterwards and the
      position of the atlas that took the image. */
  datatype Placed = Placed(atlases: seq<Atlas>, index: nat)

  predicate FitsCanvas(x: Image, width: Dim, height: Dim)
  {
    x.w <= width && x.h <= height
  }

  /** The inner loop of `Run` from atlas `i` on: the first atlas that
      accepts the image keeps it; when none does, a target atlas is created,
      offered the image and appended. A refusing atlas is unchanged, so the
      loop goes on with the same list. */
  function PlaceFrom(atlases: seq<Atlas>, x: Image, width: Dim, height: Dim, i: nat): (r: Placed)
    requires i <= |atlases|
    decreases |atlases| - i
    ensures i <= r.index <= |atlases|
    ensures forall j :: i <= j < r.index ==> !AddImage(atlases[j], x.name, x.w, x.h).ok
    ensures r.index < |atlases| ==>
      var added := AddImage(atlases[r.index], x.name, x.w, x.h);
      added.ok && r.atlases == atlases[r.index := added.atlas]
    ensures r.index == |atlases| ==>
      r.atlases == atlases + [AddImage(NewAtlas(width, height), x.name, x.w, x.h).atlas]
  {
    if i == |atlases| then
      Placed(atlases + [AddImage(NewAtlas(width, height), x.name, x.w, x.h).atlas], i)
    else
      var added := AddImage(atlases[i], x.name, x.w, x.h);
      if added.ok then Placed(atlases[i := added.atlas], i)
      else PlaceFrom(atlases, x, width, height, i + 1)
  }

  /** The whole inner loop of `Run`, over every atlas in creation order:
      the image goes to the first atlas that accepts it, every earlier one
      having refused, or else to a fresh atlas appended at the end. */
  function Place(atlases: seq<Atlas>, x: Image, width: Dim, height: Dim): (r: Placed)
    ensures r.index <= |atlases|
    ensures forall j :: 0 <= j < r.index ==> !AddImage(atlases[j], x.name, x.w, x.h).ok
    ensures r.index < |atlases| ==>
      var added := AddImage(atlases[r.index], x.name, x.w, x.h);
      added.ok && r.atlases == atlases[r.index := added.atlas]
    ensures r.index == |atlases| ==>
      r.atlases == atlases + [AddImage(NewAtlas(width, height), x.name, x.w, x.h).atlas]
  {
    PlaceFrom(atlases, x, width, height, 0)
  }

  /** The outer loop of `Run`: place the images one by one, in order. The
      atlas list never shrinks. */
  function PackAll(atlases: seq<Atlas>, images: seq<Image>, width: Dim, height: Dim): (r: seq<Atlas>)
    ensures |r| >= |atlases|
    decreases |images|
  {
    if |images| == 0 then atlases
    else PackAll(Place(atlases, images[0], width, height).atlases, images[1..], width, height)
  }

  /** Packing starts from a single empty atlas. */
  function Pack(images: seq<Image>, width: Dim, height: Dim): (r: seq<Atlas>)
    ensures |r| >= 1
  {
    PackAll([NewAtlas(width, height)], images, width, height)
  }

  function Names(images: seq<Image>): set<string>
  {
    set i | 0 <= i < |images| :: images[i].name
  }

  predicate UniqueNames(images: seq<Image>)
  {
    forall i, j :: 0 <= i < j < |images| ==> images[i].name != images[j].name
  }

  /** Every atlas is valid and has the canvas size. */
  ghost predicate AllValid(atlases: seq<Atlas>, width: Dim, height: Dim)
  {
    forall j :: 0 <= j < |atlases| ==>
      Valid(atlases[j]) && atlases[j].width == width && atlases[j].height == height
  }

  /** Every manifest name belongs to an image of `placed`. */
  ghost predicate NamesKnown(atlases: seq<Atlas>, placed: seq<Image>)
  {
    forall j, k :: 0 <= j < |atlases| && k in atlases[j].manifest ==> k in Names(placed)
  }

  /** Every image of `placed` is named in some manifest. */
  ghost predicate AllPresent(atlases: seq<Atlas>, placed: seq<Image>)
  {
    forall i :: 0 <= i < |placed| ==> exists j :: 0 <= j < |atlases| && placed[i].name in atlases[j].manifest
  }

  /** No name is in two manifests. */
  ghost predicate NoneTwice(atlases: seq<Atlas>)
  {
    forall j1, j2, k ::
      (0 <= j1 < |atlases| && 0 <= j2 < |atlases| && k in atlases[j1].manifest && k in atlases[j2].manifest)
      ==> j1 == j2
  }

  /** The manifest entry of an image has the image's own width and height. */
  ghost predicate SizesMatch(atlases: seq<Atlas>, placed: seq<Image>)
  {
    forall i, j ::
      (0 <= i < |placed| && 0 <= j < |atlases| && placed[i].name in atlases[j].manifest)
      ==> atlases[j].manifest[placed[i].name].w == placed[i].w
          && atlases[j].manifest[placed[i].name].h == placed[i].h
  }

  /** No atlas after the first is empty. */
  ghost predicate NoEmptyExtra(atlases: seq<Atlas>)
  {
    forall j :: 0 < j < |atlases| ==> |atlases[j].manifest| > 0
  }

  /** The atlas list holds exactly the images `placed`: every atlas is
      valid and of the canvas size, every manifest name is one of theirs,
      each image's name is in exactly one atlas, its entry has the image's
      size, and no atlas after the first is empty. */
  ghost predicate Records(atlases: seq<Atlas>, placed: seq<Image>, width: Dim, height: Dim)
  {
    && AllValid(atlases, width, height)
    && NamesKnown(atlases, placed)
    && AllPresent(atlases, placed)
    && NoneTwice(atlases)
    && SizesMatch(atlases, placed)
    && NoEmptyExtra(atlases)
  }

  /** The manifest that atlas `j` had before a placement; a new atlas had
      none. */
  function ManifestBefore(atlases: seq<Atlas>, j: nat): map<string, Rect>
  {
    if j < |atlases| then atlases[j].manifest else map[]
  }

  /** `after` is `atlases` with image `x` newly recorded in atlas `j0`
      (possibly a new last atlas) and nothing else changed. */
  ghost predicate Extends(atlases: seq<Atlas>, after: seq<Atlas>, j0: nat, x: Image, width: Dim, height: Dim)
  {
    && j0 <= |atlases|
    && |after| == (if j0 < |atlases| then |atlases| else |atlases| + 1)
    && (forall j :: 0 <= j < |atlases| && j != j0 ==> after[j] == atlases[j])
    && after[j0].manifest.Keys == ManifestBefore(atlases, j0).Keys + {x.name}
    && (forall k :: k in ManifestBefore(atlases, j0) ==> after[j0].manifest[k] == ManifestBefore(atlases, j0)[k])
    && after[j0].manifest[x.name].w == x.w && after[j0].manifest[x.name].h == x.h
    && Valid(after[j0]) && after[j0].width == width && after[j0].height == height
  }

  /** What one placement does to the atlas list, when the image fits the
      canvas and its name is new. */
  lemma PlaceExtends(atlases: seq<Atlas>, x: Image, width: Dim, height: Dim)
    requires AllValid(atlases, width, height)
    requires forall j :: 0 <= j < |atlases| ==> x.name !in atlases[j].manifest
    requires FitsCanvas(x, width, height)
    ensures var r := Place(atlases, x, width, height);
      Extends(atlases, r.atlases, r.index, x, width, height)
  {
    var r := Place(atlases, x, width, height);
    var j0 := r.index;
    var target := if j0 < |atlases| then atlases[j0] else NewAtlas(width, height);
    if j0 == |atlases| {
      FreshAtlasAccepts(width, height, x.name, x.w, x.h);
    }
    var added := AddImage(target, x.name, x.w, x.h);
    assert added.ok;
    if j0 < |atlases| {
      assert r.atlases == atlases[j0 := added.atlas];
    } else {
      assert r.atlases == atlases + [added.atlas];
    }
    AddedExtends(atlases, r.atlases, j0, x, width, height, target);
  }

  /** Adding `x` to `target`, which is atlas `j0` or a new atlas at the
      end, extends the list by `x` when `x` is accepted under a new name. */
  lemma AddedExtends(atlases: seq<Atlas>, after: seq<Atlas>, j0: nat, x: Image, width: Dim, height: Dim, target: Atlas)
    requires AllValid(atlases, width, height)
    requires j0 <= |atlases|
    requires target == if j0 < |atlases| then atlases[j0] else NewAtlas(width, height)
    requires x.name !in target.manifest
    requires AddImage(target, x.name, x.w, x.h).ok
    requires after == if j0 < |atlases| then atlases[j0 := AddImage(target, x.name, x.w, x.h).atlas]
      else atlases + [AddImage(target, x.name, x.w, x.h).atlas]
    ensures Extends(atlases, after, j0, x, width, height)
  {
    assert target.manifest == ManifestBefore(atlases, j0);
    AddImageKeepsValid(target, x.name, x.w, x.h);
    assert after[j0] == AddImage(target, x.name, x.w, x.h).atlas;
  }

  lemma NamesSnoc(placed: seq<Image>, x: Image)
    ensures Names(placed + [x]) == Names(placed) + {x.name}
  {
    var all := placed + [x];
    forall k | k in Names(all)
      ensures k in Names(placed) + {x.name}
    {
      var i :| 0 <= i < |all| && all[i].name == k;
      if i < |placed| {
        assert placed[i].name == k;
      }
    }
    forall k | k in Names(placed)
      ensures k in Names(all)
    {
      var i :| 0 <= i < |placed| && placed[i].name == k;
      assert all[i].name == k;
    }
    assert all[|placed|].name == x.name;
  }

  lemma ExtendsAllPresent(atlases: seq<Atlas>, after: seq<Atlas>, j0: nat, placed: seq<Image>, x: Image, width: Dim, height: Dim)
    requires Extends(atlases, after, j0, x, width, height)
    requires AllPresent(atlases, placed)
    ensures AllPresent(after, placed + [x])
  {
    var all := placed + [x];
    forall i | 0 <= i < |all|
      ensures exists j :: 0 <= j < |after| && all[i].name in after[j].manifest
    {
      if i == |placed| {
        assert all[i].name in after[j0].manifest;
      } else {
        assert all[i] == placed[i];
        var j :| 0 <= j < |atlases| && placed[i].name in atlases[j].manifest;
        if j == j0 {
          assert placed[i].name in ManifestBefore(atlases, j0);
        }
        assert all[i].name in after[j].manifest;
      }
    }
  }

  lemma ExtendsSizesMatch(atlases: seq<Atlas>, after: seq<Atlas>, j0: nat, placed: seq<Image>, x: Image, width: Dim, height: Dim)
    requires Extends(atlases, after, j0, x, width, height)
    requires SizesMatch(atlases, placed)
    requires NamesKnown(atlases, placed)
    requires x.name !in Names(placed)
    ensures SizesMatch(after, placed + [x])
  {
    var all := placed + [x];
    forall i, j | 0 <= i < |all| && 0 <= j < |after| && all[i].name in after[j].manifest
      ensures after[j].manifest[all[i].name].w == all[i].w && after[j].manifest[all[i].name].h == all[i].h
    {
      if i < |placed| {
        assert all[i] == placed[i];
        assert placed[i].name in Names(placed);
        if j == j0 {
          assert placed[i].name in ManifestBefore(atlases, j0);
        }
      }
    }
  }

  lemma ExtendsNoneTwice(atlases: seq<Atlas>, after: seq<Atlas>, j0: nat, x: Image, width: Dim, height: Dim)
    requires Extends(atlases, after, j0, x, width, height)
    requires NoneTwice(atlases)
    requires forall j :: 0 <= j < |atlases| ==> x.name !in atlases[j].manifest
    ensures NoneTwice(after)
  {
    forall j1, j2, k | 0 <= j1 < |after| && 0 <= j2 < |after| && k in after[j1].manifest && k in after[j2].manifest
      ensures j1 == j2
    {
      if j1 == j0 || j2 == j0 {
        if k != x.name {
          assert k in ManifestBefore(atlases, j0);
        }
      }
    }
  }

  lemma ExtendsRest(atlases: seq<Atlas>, after: seq<Atlas>, j0: nat, placed: seq<Image>, x: Image, width: Dim, height: Dim)
    requires Extends(atlases, after, j0, x, width, height)
    requires AllValid(atlases, width, height) && NamesKnown(atlases, placed) && NoEmptyExtra(atlases)
    ensures AllValid(after, width, height) && NamesKnown(after, placed + [x]) && NoEmptyExtra(after)
  {
    NamesSnoc(placed, x);
    assert x.name in after[j0].manifest;
    forall j, k | 0 <= j < |after| && k in after[j].manifest
      ensures k in Names(placed + [x])
    {
      if j == j0 && k != x.name {
        assert k in ManifestBefore(atlases, j0);
      }
    }
  }

  /** Placing one more image, under a name not used so far and no larger
      than the canvas, extends the record by exactly that image. */
  lemma PlaceRecords(atlases: seq<Atlas>, placed: seq<Image>, x: Image, width: Dim, height: Dim)
    requires Records(atlases, placed, width, height)
    requires x.name !in Names(placed)
    requires FitsCanvas(x, width, height)
    ensures Records(Place(atlases, x, width, height).atlases, placed + [x], width, height)
  {
    var r := Place(atlases, x, width, height);
    assert forall j :: 0 <= j < |atlases| ==> x.name !in atlases[j].manifest;
    PlaceExtends(atlases, x, width, height);
    ExtendsAllPresent(atlases, r.atlases, r.index, placed, x, width, height);
    ExtendsSizesMatch(atlases, r.atlases, r.index, placed, x, width, height);
    ExtendsNoneTwice(atlases, r.atlases, r.index, x, width, height);
    ExtendsRest(atlases, r.atlases, r.index, placed, x, width, height);
  }

  /** The next image of a run with unique names has a name not used
      before it. */
  lemma NextNameFresh(done: seq<Image>, images: seq<Image>)
    requires |images| > 0 && UniqueNames(done + images)
    ensures images[0].name !in Names(done)
    ensures (done + [images[0]]) + images[1..] == done + images
    ensures UniqueNames((done + [images[0]]) + images[1..])
  {
    var all := done + images;
    assert all[|done|] == images[0];
    forall i | 0 <= i < |done|
      ensures done[i].name != images[0].name
    {
      assert all[i] == done[i];
    }
    assert all == (done + [images[0]]) + images[1..];
  }

  /** Packing a sequence of images with fresh names that all fit the canvas
      extends the record by all of them. */
  lemma {:induction false} PackAllRecords(atlases: seq<Atlas>, done: seq<Image>, images: seq<Image>, width: Dim, height: Dim)
    requires Records(atlases, done, width, height)
    requires UniqueNames(done + images)
    requires forall i :: 0 <= i < |images| ==> FitsCanvas(images[i], width, height)
    ensures Records(PackAll(atlases, images, width, height), done + images, width, height)
    decreases |images|
  {
    if |images| > 0 {
      var x := images[0];
      NextNameFresh(done, images);
      PlaceRecords(atlases, done, x, width, height);
      var next := Place(atlases, x, width, height).atlases;
      PackAllRecords(next, done + [x], images[1..], width, height);
    } else {
      assert done + images == done;
    }
  }

  /** The end result of packing: each image's name is in the manifest of
      exactly one atlas, with a rectangle of the image's size, inside that
      atlas's canvas and clear of every other entry there. */
  lemma PackRecords(images: seq<Image>, width: Dim, height: Dim)
    requires UniqueNames(images)
    requires forall i :: 0 <= i < |images| ==> FitsCanvas(images[i], width, height)
    ensures Records(Pack(images, width, height), images, width, height)
  {
    assert Records([NewAtlas(width, height)], [], width, height);
    assert [] + images == images;
    PackAllRecords([NewAtlas(width, height)], [], images, width, height);
  }

  /** One image file as ingestion delivers it: its path and decoded extent. */
  datatype SourceFile = SourceFile(path: string, w: Dim, h: Dim)

  /** Why a run stops before anything is packed. */
  datatype RunError =
    | TooLarge(path: string, w: Dim, h: Dim)
    | NoExtension(path: string)

  /** The check made on each file, in order: larger than the canvas in
      either dimension, or a path whose name cannot be derived. */
  function Problem(f: SourceFile, width: Dim, height: Dim): (e: Option<RunError>)
    ensures e.Some? <==> f.w > width || f.h > height || forall k :: 0 <= k < |f.path| ==> f.path[k] != '.'
    ensures e.Some? ==> e.value.path == f.path
    ensures (f.w > width || f.h > height) ==> e == Some(TooLarge(f.path, f.w, f.h))
  {
    if f.w > width || f.h > height then Some(TooLarge(f.path, f.w, f.h))
    else if DeriveName(f.path).None? then Some(NoExtension(f.path))
    else None
  }

  predicate Accepted(files: seq<SourceFile>, width: Dim, height: Dim)
  {
    forall i :: 0 <= i < |files| ==> Problem(files[i], width, height).None?
  }

  predicate Named(files: seq<SourceFile>)
  {
    forall i :: 0 <= i < |files| ==> DeriveName(files[i].path).Some?
  }

  function ImageOf(f: SourceFile): Image
    requires DeriveName(f.path).Some?
  {
    Image(DeriveName(f.path).value, f.w, f.h)
  }

  /** The images the files stand for, in file order. */
  function ImagesOf(files: seq<SourceFile>): (images: seq<Image>)
    requires Named(files)
    ensures |images| == |files|
    ensures forall i :: 0 <= i < |files| ==> images[i] == ImageOf(files[i])
  {
    if |files| == 0 then [] else [ImageOf(files[0])] + ImagesOf(files[1..])
  }

  /** No two files yield the same logical name. */
  predicate UniqueDerivedNames(files: seq<SourceFile>)
  {
    forall i, j :: 0 <= i < j < |files| ==> DeriveName(files[i].path) != DeriveName(files[j].path)
  }

  /** The first file's problem, when any file has one. */
  function FirstProblem(files: seq<SourceFile>, width: Dim, height: Dim): (e: Option<RunError>)
    ensures e.None? <==> Accepted(files, width, height)
    ensures e.Some? ==> exists i :: 0 <= i < |files| && Problem(files[i], width, height) == e
                                    && Accepted(files[..i], width, height)
  {
    if |files| == 0 then None
    else if Problem(files[0], width, height).Some? then
      assert Accepted(files[..0], width, height);
      Problem(files[0], width, height)
    else
      var rest := FirstProblem(files[1..], width, height);
      AcceptedCons(files, width, height);
      if rest.Some? then
        var i :| 0 <= i < |files[1..]| && Problem(files[1..][i], width, height) == rest
                 && Accepted(files[1..][..i], width, height);
        assert files[..i + 1] == [files[0]] + files[1..][..i];
        assert files[i + 1] == files[1..][i];
        AcceptedCons(files[..i + 1], width, height);
        rest
      else
        rest
  }

  lemma AcceptedCons(files: seq<SourceFile>, width: Dim, height: Dim)
    requires |files| > 0
    ensures Accepted(files, width, height) <==>
      Problem(files[0], width, height).None? && Accepted(files[1..], width, height)
  {
    if Problem(files[0], width, height).None? && Accepted(files[1..], width, height) {
      forall i | 0 <= i < |files|
        ensures Problem(files[i], width, height).None?
      {
        if i > 0 {
          assert files[i] == files[1..][i - 1];
        }
      }
    }
  }

  /** Adding images one by one to the sorted set `acc`: the result is
      ascending, keeps every image `acc` had, holds nothing but those and
      the new images, and holds an image with the key of each new one. */
  function AddAll(acc: seq<Image>, images: seq<Image>): (r: seq<Image>)
    requires Ascending(acc)
    decreases |images|
    ensures Ascending(r)
    ensures forall y :: y in acc ==> y in r
    ensures forall y :: y in r ==> y in acc || y in images
    ensures forall i :: 0 <= i < |images| ==> exists z :: z in r && SameKey(z, images[i])
  {
    if |images| == 0 then acc
    else
      var next := SetAdd(acc, images[0]);
      var r := AddAll(next, images[1..]);
      SetAddKeeps(acc, images[0]);
      AddAllStep(acc, images, next, r);
      r
  }

  /** `SetAdd` keeps the set's elements, adds nothing but the new image, and
      afterwards holds an image with its key. */
  lemma SetAddKeeps(s: seq<Image>, x: Image)
    requires Ascending(s)
    ensures forall y :: y in s ==> y in SetAdd(s, x)
    ensures forall y :: y in SetAdd(s, x) ==> y in s || y == x
    ensures exists z :: z in SetAdd(s, x) && SameKey(z, x)
  {
    var r := SetAdd(s, x);
    if exists i :: 0 <= i < |s| && SameKey(s[i], x) {
      var i :| 0 <= i < |s| && SameKey(s[i], x);
      assert s[i] in r;
    } else {
      assert multiset(r) == multiset(s) + multiset{x};
      forall y | y in s
        ensures y in r
      {
        assert y in multiset(s);
        assert y in multiset(r);
      }
      forall y | y in r
        ensures y in s || y == x
      {
        assert y in multiset(r);
      }
      assert x in multiset(r);
      assert SameKey(x, x);
    }
  }

  lemma AddAllStep(acc: seq<Image>, images: seq<Image>, next: seq<Image>, r: seq<Image>)
    requires |images| > 0
    requires forall y :: y in acc ==> y in next
    requires forall y :: y in next ==> y in acc || y == images[0]
    requires exists z :: z in next && SameKey(z, images[0])
    requires forall y :: y in next ==> y in r
    requires forall y :: y in r ==> y in next || y in images[1..]
    requires forall i :: 0 <= i < |images[1..]| ==> exists z :: z in r && SameKey(z, images[1..][i])
    ensures forall y :: y in acc ==> y in r
    ensures forall y :: y in r ==> y in acc || y in images
    ensures forall i :: 0 <= i < |images| ==> exists z :: z in r && SameKey(z, images[i])
  {
    forall i | 0 <= i < |images|
      ensures exists z :: z in r && SameKey(z, images[i])
    {
      if i > 0 {
        assert images[i] == images[1..][i - 1];
      }
    }
  }

  /** The ingestion loop of `Run` (lines 39-60) on the files still to read,
      with the sorted set `acc` built so far. It aborts at the first file
      with a problem; otherwise its result is every file's image added to
      the sorted set in file order. */
  function Ingest(files: seq<SourceFile>, width: Dim, height: Dim, acc: seq<Image>): (r: Result<seq<Image>, RunError>)
    requires Ascending(acc)
    decreases |files|
    ensures r.Failure? <==> FirstProblem(files, width, height).Some?
    ensures r.Failure? ==> Some(r.error) == FirstProblem(files, width, height)
    ensures r.Success? ==> Named(files) && r.value == AddAll(acc, ImagesOf(files))
  {
    if |files| == 0 then Success(acc)
    else
      var f := files[0];
      if f.w > width || f.h > height then
        Failure(TooLarge(f.path, f.w, f.h))
      else match DeriveName(f.path)
        case None =>
          Failure(NoExtension(f.path))
        case Some(name) =>
          var r := Ingest(files[1..], width, height, SetAdd(acc, Image(name, f.w, f.h)));
          AcceptedCons(files, width, height);
          assert r.Success? ==> ImagesOf(files) == [Image(name, f.w, f.h)] + ImagesOf(files[1..]);
          r
  }

  /** `Run` after its directory check: ingest, then pack. A file larger
      than the canvas, or one whose name cannot be derived, stops the run
      before any atlas exists; otherwise there is at least one atlas. */
  function Run(files: seq<SourceFile>, width: Dim, height: Dim): (r: Result<seq<Atlas>, RunError>)
    ensures r.Success? <==> Accepted(files, width, height)
    ensures r.Failure? ==> Some(r.error) == FirstProblem(files, width, height)
    ensures r.Success? ==> |r.value| >= 1
  {
    match Ingest(files, width, height, [])
    case Failure(e) => Failure(e)
    case Success(sorted) => Success(Pack(sorted, width, height))
  }

  /** The images of files that pass the checks fit the canvas. */
  lemma AcceptedImagesFit(files: seq<SourceFile>, width: Dim, height: Dim)
    requires Accepted(files, width, height)
    ensures Named(files)
    ensures forall y :: y in ImagesOf(files) ==> FitsCanvas(y, width, height)
  {
    forall y | y in ImagesOf(files)
      ensures FitsCanvas(y, width, height)
    {
      var i :| 0 <= i < |ImagesOf(files)| && ImagesOf(files)[i] == y;
      assert Problem(files[i], width, height).None?;
    }
  }

  lemma DerivedNamesUnique(files: seq<SourceFile>)
    requires Named(files) && UniqueDerivedNames(files)
    ensures UniqueNames(ImagesOf(files))
  {
  }

  /** Two images of a sequence with unique names that share a name are the
      same image. */
  lemma NameDeterminesImage(images: seq<Image>, a: Image, b: Image)
    requires UniqueNames(images)
    requires a in images && b in images && a.name == b.name
    ensures a == b
  {
  }

  /** Adding images with distinct names to the sorted set keeps the names
      distinct. */
  lemma SortedNamesUnique(images: seq<Image>, sorted: seq<Image>)
    requires UniqueNames(images)
    requires sorted == AddAll([], images)
    ensures UniqueNames(sorted)
  {
    forall i, j | 0 <= i < j < |sorted|
      ensures sorted[i].name != sorted[j].name
    {
      PrecedesIsStrictTotalOrder(sorted[i], sorted[j], sorted[j]);
      if sorted[i].name == sorted[j].name {
        NameDeterminesImage(images, sorted[i], sorted[j]);
      }
    }
  }

  /** With unique names the sorted set drops nothing: it holds exactly the
      images, in packing order, under distinct names. */
  lemma SortedHoldsEveryImage(images: seq<Image>, sorted: seq<Image>)
    requires UniqueNames(images)
    requires sorted == AddAll([], images)
    ensures UniqueNames(sorted)
    ensures forall y :: y in sorted <==> y in images
  {
    SortedNamesUnique(images, sorted);
    forall i | 0 <= i < |images|
      ensures images[i] in sorted
    {
      var z :| z in sorted && SameKey(z, images[i]);
      NameDeterminesImage(images, z, images[i]);
    }
  }

  /** End to end: when every file passes the checks and no two files
      yield the same name, the run succeeds; the sorted set holds every
      file's image; and the atlases record each of them exactly once, at
      its own size, inside the canvas and clear of the other entries of its
      atlas. */
  lemma RunPacksEveryFile(files: seq<SourceFile>, width: Dim, height: Dim)
    requires Accepted(files, width, height)
    requires UniqueDerivedNames(files)
    ensures Run(files, width, height).Success?
    ensures Ingest(files, width, height, []).Success?
    ensures forall y :: y in Ingest(files, width, height, []).value <==> y in ImagesOf(files)
    ensures Records(Run(files, width, height).value, Ingest(files, width, height, []).value, width, height)
  {
    var sorted := Ingest(files, width, height, []).value;
    AcceptedImagesFit(files, width, height);
    DerivedNamesUnique(files);
    SortedHoldsEveryImage(ImagesOf(files), sorted);
    forall i | 0 <= i < |sorted|
      ensures FitsCanvas(sorted[i], width, height)
    {
      assert sorted[i] in ImagesOf(files);
    }
    PackRecords(sorted, width, height);
  }

  /** A 200x50 image against a 150x150 canvas stops the run with a size
      error naming that file, whatever else the directory holds. */
  lemma OversizedImageAbortsRun(path: string, rest: seq<SourceFile>)
    ensures Run([SourceFile(path, 200, 50)] + rest, 150, 150) == Failure(TooLarge(path, 200, 50))
  {
    var files := [SourceFile(path, 200, 50)] + rest;
    assert files[0] == SourceFile(path, 200, 50);
  }

  /** An image the only open atlas accepts goes there. */
  lemma OnlyAtlasAccepts(one: Atlas, x: Image, width: Dim, height: Dim)
    requires AddImage(one, x.name, x.w, x.h).ok
    ensures Place([one], x, width, height).atlases == [AddImage(one, x.name, x.w, x.h).atlas]
  {
    assert [one][0 := AddImage(one, x.name, x.w, x.h).atlas] == [AddImage(one, x.name, x.w, x.h).atlas];
  }

  /** An image that every open atlas refuses goes into a fresh one,
      appended at the end. */
  lemma RefusedEverywhereOpensAtlas(atlases: seq<Atlas>, x: Image, width: Dim, height: Dim)
    requires forall j :: 0 <= j < |atlases| ==> !AddImage(atlases[j], x.name, x.w, x.h).ok
    ensures Place(atlases, x, width, height).atlases
      == atlases + [AddImage(NewAtlas(width, height), x.name, x.w, x.h).atlas]
  {
  }

  /** An image the only open atlas refuses opens a second one. */
  lemma SecondAtlasOpens(one: Atlas, x: Image, width: Dim, height: Dim)
    requires !AddImage(one, x.name, x.w, x.h).ok
    ensures Place([one], x, width, height).atlases
      == [one, AddImage(NewAtlas(width, height), x.name, x.w, x.h).atlas]
  {
    forall j | 0 <= j < |[one]| ensures !AddImage([one][j], x.name, x.w, x.h).ok {
      assert j == 0;
    }
    RefusedEverywhereOpensAtlas([one], x, width, height);
  }

  /** An image both open atlases refuse opens a third one. */
  lemma ThirdAtlasOpens(one: Atlas, two: Atlas, x: Image, width: Dim, height: Dim)
    requires !AddImage(one, x.name, x.w, x.h).ok && !AddImage(two, x.name, x.w, x.h).ok
    ensures Place([one, two], x, width, height).atlases
      == [one, two, AddImage(NewAtlas(width, height), x.name, x.w, x.h).atlas]
  {
    forall j | 0 <= j < |[one, two]| ensures !AddImage([one, two][j], x.name, x.w, x.h).ok {
      assert j == 0 || j == 1;
    }
    RefusedEverywhereOpensAtlas([one, two], x, width, height);
  }

  /** Packing three images is three placements in a row. */
  lemma PackThree(images: seq<Image>, width: Dim, height: Dim, s1: seq<Atlas>, s2: seq<Atlas>, s3: seq<Atlas>)
    requires |images| == 3
    requires Place([NewAtlas(width, height)], images[0], width, height).atlases == s1
    requires Place(s1, images[1], width, height).atlases == s2
    requires Place(s2, images[2], width, height).atlases == s3
    ensures Pack(images, width, height) == s3
  {
    assert images[1..][0] == images[1] && images[1..][1..] == images[2..];
    assert images[2..][0] == images[2] && images[2..][1..] == [];
    assert Pack(images, width, height) == PackAll(s1, images[1..], width, height);
    assert PackAll(s1, images[1..], width, height) == PackAll(s2, images[2..], width, height);
    assert PackAll(s2, images[2..], width, height) == PackAll(s3, [], width, height);
  }

  /** Three 60x60 images on 100x100 canvases each open an atlas of their
      own: the first leaves free strips of 40x60 and 100x40 only. */
  lemma SixtySquaresTakeOneAtlasEach(images: seq<Image>, width: Dim, height: Dim)
    requires |images| == 3 && width == 100 && height == 100
    requires forall i :: 0 <= i < |images| ==> images[i].w == 60 && images[i].h == 60
    ensures |Pack(images, width, height)| == 3
  {
    var a, b, c := images[0], images[1], images[2];
    var empty := NewAtlas(width, height);
    SixtySquaresNeedOwnAtlas(empty, a.name, b.name, c.name, a.w, a.h);
    var one := AddImage(empty, a.name, a.w, a.h).atlas;
    var two := AddImage(empty, b.name, b.w, b.h).atlas;
    OnlyAtlasAccepts(empty, a, width, height);
    SecondAtlasOpens(one, b, width, height);
    ThirdAtlasOpens(one, two, c, width, height);
    PackThree(images, width, height, [one], [one, two], Place([one, two], c, width, height).atlases);
  }
}

=== FILE: geometry.dfy ===
/** Integer rectangles as `java.awt.Rectangle` uses them: origin at the
    top-left corner, x growing right and y growing down. */
module Geometry {

  /** A pixel extent of a decoded image: never zero or negative. */
  type Dim = n: int | n > 0 witness 1

  datatype Rect = Rect(x: int, y: int, w: int, h: int)

  function Area(r: Rect): int
  {
    r.w * r.h
  }

  /** The pixel at column `px`, row `py` lies inside `r`. */
  predicate Contains(r: Rect, px: int, py: int)
  {
    r.x <= px < r.x + r.w && r.y <= py < r.y + r.h
  }

  predicate Within(inner: Rect, outer: Rect)
  {
    && outer.x <= inner.x
    && outer.y <= inner.y
    && inner.x + inner.w <= outer.x + outer.w
    && inner.y + inner.h <= outer.y + outer.h
  }

  /** The two rectangles are separated along at least one axis. */
  predicate Disjoint(a: Rect, b: Rect)
  {
    a.x + a.w <= b.x || b.x + b.w <= a.x || a.y + a.h <= b.y || b.y + b.h <= a.y
  }

  /** `a` and `b` are the left and right parts of `p`, both non-empty. */
  predicate VerticalCut(p: Rect, a: Rect, b: Rect)
  {
    && 0 < a.w < p.w
    && a == Rect(p.x, p.y, a.w, p.h)
    && b == Rect(p.x + a.w, p.y, p.w - a.w, p.h)
  }

  /** `a` and `b` are the top and bottom parts of `p`, both non-empty. */
  predicate HorizontalCut(p: Rect, a: Rect, b: Rect)
  {
    && 0 < a.h < p.h
    && a == Rect(p.x, p.y, p.w, a.h)
    && b == Rect(p.x, p.y + a.h, p.w, p.h - a.h)
  }

  /** `a` and `b` are the two halves of one straight cut through `p`. */
  predicate Tiles(p: Rect, a: Rect, b: Rect)
  {
    VerticalCut(p, a, b) || HorizontalCut(p, a, b)
  }

  /** A cut leaves no gap and no overlap: every pixel of the parent lies in
      exactly one half, and the halves' areas add up to the parent's. */
  lemma TilesPartition(p: Rect, a: Rect, b: Rect)
    requires Tiles(p, a, b)
    ensures Within(a, p) && Within(b, p)
    ensures Disjoint(a, b)
    ensures Area(a) + Area(b) == Area(p)
    ensures forall px, py :: Contains(p, px, py) <==> Contains(a, px, py) || Contains(b, px, py)
    ensures forall px, py :: !(Contains(a, px, py) && Contains(b, px, py))
  {
  }

  /** For rectangles that hold at least one pixel, separation along an axis
      is the same as sharing no pixel. */
  lemma DisjointIffNoCommonPixel(a: Rect, b: Rect)
    requires a.w > 0 && a.h > 0 && b.w > 0 && b.h > 0
    ensures Disjoint(a, b) <==> forall px, py :: !(Contains(a, px, py) && Contains(b, px, py))
  {
    if !Disjoint(a, b) {
      var px := if a.x < b.x then b.x else a.x;
      var py := if a.y < b.y then b.y else a.y;
      assert Contains(a, px, py) && Contains(b, px, py);
    }
  }

  lemma DisjointSymmetric(a: Rect, b: Rect)
    ensures Disjoint(a, b) <==> Disjoint(b, a)
  {
  }

  /** Parts of separated regions are separated. */
  lemma WithinDisjoint(a: Rect, outerA: Rect, b: Rect, outerB: Rect)
    requires Within(a, outerA) && Within(b, outerB)
    requires Disjoint(outerA, outerB)
    ensures Disjoint(a, b)
  {
  }

  lemma WithinTransitive(a: Rect, b: Rect, c: Rect)
    requires Within(a, b) && Within(b, c)
    ensures Within(a, c)
  {
  }
}

=== FILE: naming.dfy ===
/** The logical name of an image file (AtlasGenerator.java line 51): the
    path up to its last '.', with every backslash turned into a slash. */
module Naming {
  import opened Options

  /** `String.lastIndexOf(c)`: the position of the last `c`, or -1. */
  function LastIndexOf(s: string, c: char): (i: int)
    ensures -1 <= i < |s|
    ensures i >= 0 ==> s[i] == c
    ensures forall k :: i < k < |s| ==> s[k] != c
    decreases |s|
  {
    if |s| == 0 then -1
    else if s[|s| - 1] == c then |s| - 1
    else LastIndexOf(s[..|s| - 1], c)
  }

  /** `String.replace("\\", "/")` on a single-character pattern. */
  function SlashSeparators(s: string): (r: string)
    ensures |r| == |s|
    ensures forall k :: 0 <= k < |s| ==> r[k] == (if s[k] == '\\' then '/' else s[k])
  {
    if |s| == 0 then []
    else [if s[0] == '\\' then '/' else s[0]] + SlashSeparators(s[1..])
  }

  /** The name derivation. A path without any '.' makes `substring(0, -1)`
      throw in the source; that is `None` here. */
  function DeriveName(path: string): (name: Option<string>)
    ensures name.None? <==> forall k :: 0 <= k < |path| ==> path[k] != '.'
    ensures name.Some? ==> |name.value| < |path| && path[|name.value|] == '.'
    ensures name.Some? ==> forall k :: |name.value| < k < |path| ==> path[k] != '.'
    ensures name.Some? ==> forall k :: 0 <= k < |name.value| ==>
      name.value[k] == (if path[k] == '\\' then '/' else path[k])
    ensures name.Some? ==> forall k :: 0 <= k < |name.value| ==> name.value[k] != '\\'
  {
    var dot := LastIndexOf(path, '.');
    if dot < 0 then None else Some(SlashSeparators(path[..dot]))
  }
}

=== FILE: options.dfy ===
/** Failure-carrying wrappers: a missing placement is `None` (the source's
    `null` node), an aborted run is a `Failure`. */
module Options {

  datatype Option<+T> = None | Some(value: T)

  datatype Result<+R, +E> = Success(value: R) | Failure(error: E)
}

=== FILE: ordering.dfy ===
/** The order in which images are packed (`ImageName` and
    `ImageNameComparator` in AtlasGenerator.java): larger area first, equal
    areas by ascending name, kept in a sorted set that drops an image whose
    area and name both equal an earlier one's. */
module Ordering {
  import opened Geometry

  /** An ingested image: its logical name and its pixel extent. */
  datatype Image = Image(name: string, w: Dim, h: Dim)

  function PixelCount(x: Image): int
  {
    x.w * x.h
  }

  /** `String.compareTo`: the difference of the first differing characters,
      or of the lengths when one name is a prefix of the other. It is zero
      exactly on equal names. */
  function CompareNames(s: string, t: string): (c: int)
    decreases |s|
    ensures c == 0 <==> s == t
  {
    if |s| == 0 || |t| == 0 then |s| - |t|
    else if s[0] != t[0] then s[0] as int - t[0] as int
    else
      assert s == [s[0]] + s[1..] && t == [t[0]] + t[1..];
      CompareNames(s[1..], t[1..])
  }

  /** Lexicographic order on names, stated independently of
      `CompareNames`: `s` is a proper prefix of `t`, or at the first position
      where they differ `s` has the smaller character. */
  ghost predicate NameBefore(s: string, t: string)
  {
    || (|s| < |t| && s == t[..|s|])
    || exists k :: 0 <= k < |s| && k < |t| && s[..k] == t[..k] && s[k] < t[k]
  }

  /** Packing order: more pixels first, then the lexicographically smaller
      name. */
  ghost predicate Precedes(x: Image, y: Image)
  {
    PixelCount(x) > PixelCount(y) || (PixelCount(x) == PixelCount(y) && NameBefore(x.name, y.name))
  }

  /** The comparator treats two images as the same set element exactly when
      their areas and their names are equal. */
  predicate SameKey(x: Image, y: Image)
  {
    PixelCount(x) == PixelCount(y) && x.name == y.name
  }

  lemma NameBeforeDropsHead(s: string, t: string)
    requires |s| > 0 && |t| > 0 && s[0] == t[0]
    requires NameBefore(s, t)
    ensures NameBefore(s[1..], t[1..])
  {
    if !(|s| < |t| && s == t[..|s|]) {
      var k :| 0 <= k < |s| && k < |t| && s[..k] == t[..k] && s[k] < t[k];
      if k == 0 {
        assert false;
      }
      assert s[1..][..k - 1] == t[1..][..k - 1] by {
        assert s[1..][..k - 1] == s[..k][1..];
        assert t[1..][..k - 1] == t[..k][1..];
      }
      assert s[1..][k - 1] < t[1..][k - 1];
    }
  }

  lemma NameBeforeAddsHead(s: string, t: string)
    requires |s| > 0 && |t| > 0 && s[0] == t[0]
    requires NameBefore(s[1..], t[1..])
    ensures NameBefore(s, t)
  {
    if |s[1..]| < |t[1..]| && s[1..] == t[1..][..|s[1..]|] {
      assert s == t[..|s|] by {
        assert s == [s[0]] + s[1..];
        assert t[..|s|] == [t[0]] + t[1..][..|s| - 1];
      }
    } else {
      var k :| 0 <= k < |s[1..]| && k < |t[1..]| && s[1..][..k] == t[1..][..k] && s[1..][k] < t[1..][k];
      assert s[..k + 1] == t[..k + 1] by {
        assert s[..k + 1] == [s[0]] + s[1..][..k];
        assert t[..k + 1] == [t[0]] + t[1..][..k];
      }
      assert s[k + 1] < t[k + 1];
    }
  }

  lemma NameBeforeTail(s: string, t: string)
    requires |s| > 0 && |t| > 0 && s[0] == t[0]
    ensures NameBefore(s, t) <==> NameBefore(s[1..], t[1..])
  {
    if NameBefore(s, t) {
      NameBeforeDropsHead(s, t);
    }
    if NameBefore(s[1..], t[1..]) {
      NameBeforeAddsHead(s, t);
    }
  }

  /** A negative `compareTo` means exactly "lexicographically before". */
  lemma {:induction false} CompareNamesIsLexicographic(s: string, t: string)
    ensures CompareNames(s, t) < 0 <==> NameBefore(s, t)
    decreases |s|
  {
    if |s| == 0 {
      if |t| > 0 {
        assert s == t[..0];
      }
    } else if |t| == 0 {
    } else if s[0] != t[0] {
      if s[0] < t[0] {
        assert s[..0] == t[..0];
      }
      if NameBefore(s, t) {
        assert !(|s| < |t| && s == t[..|s|]) by {
          if |s| < |t| {
            assert t[..|s|][0] == t[0];
          }
        }
        var k :| 0 <= k < |s| && k < |t| && s[..k] == t[..k] && s[k] < t[k];
        if k > 0 {
          assert s[..k][0] == t[..k][0];
        }
      }
    } else {
      CompareNamesIsLexicographic(s[1..], t[1..]);
      NameBeforeTail(s, t);
    }
  }

  /** Swapping the arguments of `compareTo` negates it. */
  lemma {:induction false} CompareNamesSwap(s: string, t: string)
    ensures CompareNames(t, s) == -CompareNames(s, t)
    decreases |s|
  {
    if |s| > 0 && |t| > 0 && s[0] == t[0] {
      CompareNamesSwap(s[1..], t[1..]);
    }
  }

  /** "Before" on names is transitive. */
  lemma {:induction false} CompareNamesTransitive(s: string, t: string, u: string)
    requires CompareNames(s, t) < 0 && CompareNames(t, u) < 0
    ensures CompareNames(s, u) < 0
    decreases |s|
  {
    if |s| > 0 && |t| > 0 && |u| > 0 && s[0] == t[0] && t[0] == u[0] {
      CompareNamesTransitive(s[1..], t[1..], u[1..]);
    }
  }

  /** `ImageNameComparator.compare`: negative when `x` is packed before
      `y`, zero when the set treats them as one element, positive when `y`
      comes first. */
  function Compare(x: Image, y: Image): (c: int)
    ensures c < 0 <==> Precedes(x, y)
    ensures c == 0 <==> SameKey(x, y)
    ensures c > 0 <==> Precedes(y, x)
  {
    var area1 := PixelCount(x);
    var area2 := PixelCount(y);
    CompareNamesIsLexicographic(x.name, y.name);
    CompareNamesIsLexicographic(y.name, x.name);
    CompareNamesSwap(x.name, y.name);
    if area1 != area2 then area2 - area1 else CompareNames(x.name, y.name)
  }

  /** Packing order is a strict total order on (area, name): irreflexive,
      transitive, and any two images are ordered one way or the other
      unless their area and name coincide. */
  lemma PrecedesIsStrictTotalOrder(x: Image, y: Image, z: Image)
    ensures !Precedes(x, x)
    ensures Precedes(x, y) && Precedes(y, z) ==> Precedes(x, z)
    ensures Precedes(x, y) || SameKey(x, y) || Precedes(y, x)
    ensures !(Precedes(x, y) && Precedes(y, x))
  {
    KeysOrdered(x, x);
    KeysOrdered(x, y);
    if Precedes(x, y) && Precedes(y, z) && PixelCount(x) == PixelCount(z) {
      CompareNamesIsLexicographic(x.name, y.name);
      CompareNamesIsLexicographic(y.name, z.name);
      CompareNamesIsLexicographic(x.name, z.name);
      CompareNamesTransitive(x.name, y.name, z.name);
    }
  }

  /** Exactly one of three holds for any two images: the first is packed
      earlier, they share a key, or the second is packed earlier. */
  lemma KeysOrdered(x: Image, y: Image)
    ensures Precedes(x, y) || SameKey(x, y) || Precedes(y, x)
    ensures !(Precedes(x, y) && SameKey(x, y))
    ensures !(Precedes(y, x) && SameKey(x, y))
    ensures !(Precedes(x, y) && Precedes(y, x))
  {
    CompareNamesIsLexicographic(x.name, y.name);
    CompareNamesIsLexicographic(y.name, x.name);
    CompareNamesSwap(x.name, y.name);
  }

  /** Strictly increasing in packing order: the iteration order of the
      sorted set. */
  ghost predicate Ascending(s: seq<Image>)
  {
    forall i, j :: 0 <= i < j < |s| ==> Precedes(s[i], s[j])
  }

  lemma AscendingCons(x: Image, s: seq<Image>)
    requires Ascending(s)
    requires forall i :: 0 <= i < |s| ==> Precedes(x, s[i])
    ensures Ascending([x] + s)
  {
    var r := [x] + s;
    forall i, j | 0 <= i < j < |r|
      ensures Precedes(r[i], r[j])
    {
      if i > 0 {
        assert r[i] == s[i - 1] && r[j] == s[j - 1];
      } else {
        assert r[j] == s[j - 1];
      }
    }
  }

  /** `TreeSet.add` with the comparator: an image whose key is already
      present is dropped, any other is inserted at its place in the order. */
  function SetAdd(s: seq<Image>, x: Image): (r: seq<Image>)
    requires Ascending(s)
    ensures Ascending(r)
    ensures (exists i :: 0 <= i < |s| && SameKey(s[i], x)) ==> r == s
    ensures (forall i :: 0 <= i < |s| ==> !SameKey(s[i], x)) ==> multiset(r) == multiset(s) + multiset{x}
  {
    if |s| == 0 then [x]
    else
      var c := Compare(x, s[0]);
      if c == 0 then s
      else if c < 0 then
        SmallestGoesFirst(x, s);
        [x] + s
      else
        var rest := SetAdd(s[1..], x);
        SetAddTail(s, x, rest);
        [s[0]] + rest
  }

  /** An image that precedes the head of an ascending sequence precedes all
      of it, so it shares no key with any element. */
  lemma SmallestGoesFirst(x: Image, s: seq<Image>)
    requires Ascending(s) && |s| > 0 && Precedes(x, s[0])
    ensures Ascending([x] + s)
    ensures forall i :: 0 <= i < |s| ==> !SameKey(s[i], x)
  {
    forall i | 0 <= i < |s|
      ensures Precedes(x, s[i]) && !SameKey(s[i], x)
    {
      PrecedesIsStrictTotalOrder(x, s[0], s[i]);
      KeysOrdered(x, s[i]);
    }
    AscendingCons(x, s);
  }

  /** The recursive case of `SetAdd`: keeping the head in front of the
      tail's result preserves all three promises. */
  lemma SetAddTail(s: seq<Image>, x: Image, rest: seq<Image>)
    requires Ascending(s) && |s| > 0 && Precedes(s[0], x)
    requires Ascending(rest)
    requires (exists i :: 0 <= i < |s[1..]| && SameKey(s[1..][i], x)) ==> rest == s[1..]
    requires (forall i :: 0 <= i < |s[1..]| ==> !SameKey(s[1..][i], x)) ==>
      multiset(rest) == multiset(s[1..]) + multiset{x}
    ensures Ascending([s[0]] + rest)
    ensures (exists i :: 0 <= i < |s| && SameKey(s[i], x)) ==> [s[0]] + rest == s
    ensures (forall i :: 0 <= i < |s| ==> !SameKey(s[i], x)) ==>
      multiset([s[0]] + rest) == multiset(s) + multiset{x}
  {
    assert s == [s[0]] + s[1..];
    KeysOrdered(s[0], x);
    forall i | 0 <= i < |rest|
      ensures Precedes(s[0], rest[i])
    {
      assert rest[i] in multiset(rest);
      if rest[i] != x {
        assert rest[i] in multiset(s[1..]);
        var j :| 0 <= j < |s[1..]| && s[1..][j] == rest[i];
        assert s[j + 1] == rest[i];
      }
    }
    AscendingCons(s[0], rest);
    if exists i :: 0 <= i < |s| && SameKey(s[i], x) {
      var i :| 0 <= i < |s| && SameKey(s[i], x);
      assert i != 0;
      assert SameKey(s[1..][i - 1], x);
    }
  }
}

=== FILE: packer.dfy ===
/** The packer tree of one atlas (`Texture.Node` in AtlasGenerator.java):
    a binary space partition of the canvas whose leaves are either free or
    hold exactly one image. */
module Packer {
  import opened Options
  import opened Geometry

  /** A node has either no children or exactly two; only a leaf can hold an
      image. */
  datatype Node =
    | Leaf(rect: Rect, occupied: bool)
    | Split(rect: Rect, c0: Node, c1: Node)

  /** The outcome of one insertion: the placement (`None` where the source
      returns `null`) and the tree after the insertion. */
  datatype Inserted = Inserted(placement: Option<Rect>, node: Node)

  /** The shape every tree built by insertion has: the two children of each
      split are the halves of one straight cut through it. */
  predicate WellFormed(n: Node)
  {
    match n
    case Leaf(_, _) => true
    case Split(r, c0, c1) => Tiles(r, c0.rect, c1.rect) && WellFormed(c0) && WellFormed(c1)
  }

  /** The rectangles of the occupied leaves, left subtree first. */
  function Placements(n: Node): seq<Rect>
  {
    match n
    case Leaf(r, occupied) => if occupied then [r] else []
    case Split(_, c0, c1) => Placements(c0) + Placements(c1)
  }

  /** The rectangles of the free leaves, left subtree first. */
  function FreeLeaves(n: Node): seq<Rect>
  {
    match n
    case Leaf(r, occupied) => if occupied then [] else [r]
    case Split(_, c0, c1) => FreeLeaves(c0) + FreeLeaves(c1)
  }

  predicate Fits(r: Rect, w: Dim, h: Dim)
  {
    w <= r.w && h <= r.h
  }

  /** The cut made when an image fits a free leaf but is smaller than it:
      along the axis with the larger slack, child 0 being the strip at the
      leaf's origin exactly as wide (vertical cut) or as tall (horizontal
      cut) as the image. */
  function SplitLeaf(r: Rect, w: Dim, h: Dim): (halves: (Rect, Rect))
    requires Fits(r, w, h) && !(w == r.w && h == r.h)
    ensures Tiles(r, halves.0, halves.1)
    ensures VerticalCut(r, halves.0, halves.1) <==> r.w - w > r.h - h
    ensures VerticalCut(r, halves.0, halves.1) ==> halves.0.w == w
    ensures HorizontalCut(r, halves.0, halves.1) ==> halves.0.h == h
  {
    var dw := r.w - w;
    var dh := r.h - h;
    if dw > dh then
      (Rect(r.x, r.y, w, r.h), Rect(r.x + w, r.y, r.w - w, r.h))
    else
      (Rect(r.x, r.y, r.w, h), Rect(r.x, r.y + h, r.w, r.h - h))
  }

  /** The free space a fitting image leaves in a free leaf `r`, as the
      free leaves read left to right: nothing for an exact fit; otherwise
      the part of the image's strip beside or below the image, when there
      is one, followed by the rest of the leaf across the cut. The image
      sits at the leaf's origin. */
  function Remainder(r: Rect, w: Dim, h: Dim): seq<Rect>
    requires Fits(r, w, h)
  {
    if w == r.w && h == r.h then []
    else if r.w - w > r.h - h then
      (if h < r.h then [Rect(r.x, r.y + h, w, r.h - h)] else []) + [Rect(r.x + w, r.y, r.w - w, r.h)]
    else
      (if w < r.w then [Rect(r.x + w, r.y, r.w - w, h)] else []) + [Rect(r.x, r.y + h, r.w, r.h - h)]
  }

  function AreaSum(rs: seq<Rect>): int
  {
    if |rs| == 0 then 0 else Area(rs[0]) + AreaSum(rs[1..])
  }

  /** The remainder is exactly the leaf minus the image: at most two
      non-empty pieces inside the leaf, clear of the image and of each
      other, whose areas and the image's add up to the leaf's. */
  lemma RemainderFillsLeaf(r: Rect, w: Dim, h: Dim)
    requires Fits(r, w, h)
    ensures |Remainder(r, w, h)| <= 2
    ensures forall q :: q in Remainder(r, w, h) ==>
      q.w > 0 && q.h > 0 && Within(q, r) && Disjoint(q, Rect(r.x, r.y, w, h))
    ensures forall i, j :: 0 <= i < j < |Remainder(r, w, h)| ==>
      Disjoint(Remainder(r, w, h)[i], Remainder(r, w, h)[j])
    ensures Area(r) == w * h + AreaSum(Remainder(r, w, h))
  {
    var rest := Remainder(r, w, h);
    if w == r.w && h == r.h {
    } else if r.w - w > r.h - h {
      assert r.w * r.h == w * h + w * (r.h - h) + (r.w - w) * r.h;
      if h < r.h {
        assert AreaSum(rest) == Area(rest[0]) + AreaSum(rest[1..]);
        assert AreaSum(rest[1..]) == Area(rest[1]) + AreaSum(rest[2..]);
      } else {
        assert AreaSum(rest) == Area(rest[0]) + AreaSum(rest[1..]);
      }
    } else {
      assert r.w * r.h == w * h + (r.w - w) * h + r.w * (r.h - h);
      if w < r.w {
        assert AreaSum(rest) == Area(rest[0]) + AreaSum(rest[1..]);
        assert AreaSum(rest[1..]) == Area(rest[1]) + AreaSum(rest[2..]);
      } else {
        assert AreaSum(rest) == Area(rest[0]) + AreaSum(rest[1..]);
      }
    }
  }

  /** The leaf branch of `Insert` on a free leaf covering `r`. A fitting
      image always lands at the leaf's top-left corner; the recursion goes
      into child 0 of a fresh split, whose width plus height is strictly
      smaller than the leaf's. */
  function InsertFree(r: Rect, w: Dim, h: Dim): (res: Inserted)
    decreases r.w + r.h
    ensures res.node.rect == r
    ensures WellFormed(res.node)
    ensures !Fits(r, w, h) ==> res == Inserted(None, Leaf(r, false))
    ensures Fits(r, w, h) ==> res.placement == Some(Rect(r.x, r.y, w, h))
    ensures Fits(r, w, h) ==> Placements(res.node) == [Rect(r.x, r.y, w, h)]
    ensures Fits(r, w, h) ==> FreeLeaves(res.node) == Remainder(r, w, h)
  {
    if w > r.w || h > r.h then
      Inserted(None, Leaf(r, false))
    else if w == r.w && h == r.h then
      Inserted(Some(r), Leaf(r, true))
    else
      var (a, b) := SplitLeaf(r, w, h);
      var sub := InsertFree(a, w, h);
      Inserted(sub.placement, Split(r, sub.node, Leaf(b, false)))
  }

  /** `Node.Insert`: an internal node offers the image to child 0 and only
      then to child 1; a leaf refuses when occupied and otherwise behaves as
      `InsertFree`. A refusal leaves the tree as it was; an acceptance
      yields a rectangle of exactly the image's size and adds exactly that
      rectangle to the placements. */
  function Insert(n: Node, w: Dim, h: Dim): (res: Inserted)
    ensures res.node.rect == n.rect
    ensures res.placement.None? ==> res.node == n
    ensures res.placement.Some? ==> res.placement.value.w == w && res.placement.value.h == h
    ensures res.placement.Some? ==>
      multiset(Placements(res.node)) == multiset(Placements(n)) + multiset{res.placement.value}
  {
    match n
    case Split(r, c0, c1) =>
      var first := Insert(c0, w, h);
      if first.placement.Some? then
        Inserted(first.placement, Split(r, first.node, c1))
      else
        var second := Insert(c1, w, h);
        Inserted(second.placement, Split(r, c0, second.node))
    case Leaf(r, occupied) =>
      if occupied then Inserted(None, n) else InsertFree(r, w, h)
  }

  /** Every placement of a well-formed tree lies inside the tree's region. */
  lemma {:induction false} PlacementsWithin(n: Node)
    requires WellFormed(n)
    ensures forall q :: q in Placements(n) ==> Within(q, n.rect)
  {
    match n
    case Leaf(_, _) =>
    case Split(r, c0, c1) =>
      PlacementsWithin(c0);
      PlacementsWithin(c1);
      TilesPartition(r, c0.rect, c1.rect);
      forall q | q in Placements(n)
        ensures Within(q, r)
      {
        if q in Placements(c0) {
          WithinTransitive(q, c0.rect, r);
        } else {
          WithinTransitive(q, c1.rect, r);
        }
      }
  }

  /** The placements of a well-formed tree are pairwise disjoint. */
  lemma {:induction false} PlacementsDisjoint(n: Node)
    requires WellFormed(n)
    ensures forall i, j :: 0 <= i < j < |Placements(n)| ==> Disjoint(Placements(n)[i], Placements(n)[j])
  {
    match n
    case Leaf(_, _) =>
    case Split(r, c0, c1) =>
      PlacementsDisjoint(c0);
      PlacementsDisjoint(c1);
      PlacementsWithin(c0);
      PlacementsWithin(c1);
      TilesPartition(r, c0.rect, c1.rect);
      var p0, p1 := Placements(c0), Placements(c1);
      var ps := Placements(n);
      assert ps == p0 + p1;
      forall i, j | 0 <= i < j < |ps|
        ensures Disjoint(ps[i], ps[j])
      {
        if i < |p0| && |p0| <= j {
          assert ps[i] == p0[i] && ps[i] in p0;
          assert ps[j] == p1[j - |p0|] && ps[j] in p1;
          WithinDisjoint(ps[i], c0.rect, ps[j], c1.rect);
        } else if j < |p0| {
          assert ps[i] == p0[i] && ps[j] == p0[j];
        } else {
          assert ps[i] == p1[i - |p0|] && ps[j] == p1[j - |p0|];
        }
      }
  }

  /** An insertion into a well-formed tree keeps it well-formed, and an
      accepted image lies inside the tree's region, clear of every earlier
      placement. */
  lemma {:induction false} InsertSound(n: Node, w: Dim, h: Dim)
    requires WellFormed(n)
    ensures WellFormed(Insert(n, w, h).node)
    ensures Insert(n, w, h).placement.Some? ==> Within(Insert(n, w, h).placement.value, n.rect)
    ensures Insert(n, w, h).placement.Some? ==>
      forall q :: q in Placements(n) ==> Disjoint(Insert(n, w, h).placement.value, q)
  {
    match n
    case Leaf(r, occupied) =>
    case Split(r, c0, c1) =>
      TilesPartition(r, c0.rect, c1.rect);
      var first := Insert(c0, w, h);
      InsertSound(c0, w, h);
      PlacementsWithin(c0);
      PlacementsWithin(c1);
      if first.placement.Some? {
        var p := first.placement.value;
        WithinTransitive(p, c0.rect, r);
        forall q | q in Placements(n)
          ensures Disjoint(p, q)
        {
          if q !in Placements(c0) {
            WithinDisjoint(p, c0.rect, q, c1.rect);
          }
        }
      } else {
        var second := Insert(c1, w, h);
        InsertSound(c1, w, h);
        if second.placement.Some? {
          var p := second.placement.value;
          WithinTransitive(p, c1.rect, r);
          forall q | q in Placements(n)
            ensures Disjoint(p, q)
          {
            if q !in Placements(c1) {
              WithinDisjoint(q, c0.rect, p, c1.rect);
              DisjointSymmetric(q, p);
            }
          }
        }
      }
  }

  /** The search is complete: an insertion is refused exactly when no free
      leaf anywhere in the tree is large enough for the image. */
  lemma {:induction false} InsertRefusesIffNoRoom(n: Node, w: Dim, h: Dim)
    ensures Insert(n, w, h).placement.None? <==> forall q :: q in FreeLeaves(n) ==> !Fits(q, w, h)
  {
    match n
    case Leaf(r, occupied) =>
    case Split(r, c0, c1) =>
      InsertRefusesIffNoRoom(c0, w, h);
      InsertRefusesIffNoRoom(c1, w, h);
  }

  /** The leaf cases of `Insert`: a leaf refuses exactly when it is
      occupied or smaller than the image in some dimension; an exact fit
      occupies the leaf itself without creating children; any other fit
      splits the leaf and places the image at its origin. The cut is
      vertical when the horizontal slack is the larger and horizontal
      otherwise, child 0 being the strip at the origin as wide or as tall
      as the image and child 1 the rest of the leaf, left free. */
  lemma LeafCases(r: Rect, occupied: bool, w: Dim, h: Dim)
    ensures Insert(Leaf(r, occupied), w, h).placement.None? <==> occupied || !Fits(r, w, h)
    ensures !occupied && w == r.w && h == r.h ==>
      Insert(Leaf(r, occupied), w, h) == Inserted(Some(r), Leaf(r, true))
    ensures !occupied && Fits(r, w, h) && !(w == r.w && h == r.h) ==>
      Insert(Leaf(r, occupied), w, h).node.Split? &&
      Insert(Leaf(r, occupied), w, h).placement == Some(Rect(r.x, r.y, w, h))
    ensures !occupied && Fits(r, w, h) && !(w == r.w && h == r.h) && r.w - w > r.h - h ==>
      var n := Insert(Leaf(r, occupied), w, h).node;
      n.c0.rect == Rect(r.x, r.y, w, r.h) && n.c1 == Leaf(Rect(r.x + w, r.y, r.w - w, r.h), false)
    ensures !occupied && Fits(r, w, h) && !(w == r.w && h == r.h) && r.w - w <= r.h - h ==>
      var n := Insert(Leaf(r, occupied), w, h).node;
      n.c0.rect == Rect(r.x, r.y, r.w, h) && n.c1 == Leaf(Rect(r.x, r.y + h, r.w, r.h - h), false)
  {
  }

  /** An internal node tries child 0 first. When child 0 accepts, its
      placement is returned unchanged and lies in child 0's half, child 0
      becomes its own insertion result and child 1 is never touched; when
      child 0 refuses, it stays as it was, child 1 becomes its insertion
      result and the answer is child 1's. */
  lemma InternalNodeOrder(r: Rect, c0: Node, c1: Node, w: Dim, h: Dim)
    requires WellFormed(Split(r, c0, c1))
    ensures var res, first := Insert(Split(r, c0, c1), w, h), Insert(c0, w, h);
      first.placement.Some? ==>
        res.placement == first.placement && Within(res.placement.value, c0.rect) &&
        res.node == Split(r, first.node, c1)
    ensures var res, first := Insert(Split(r, c0, c1), w, h), Insert(c0, w, h);
      first.placement.None? ==>
        res.node == Split(r, c0, Insert(c1, w, h).node) && res.placement == Insert(c1, w, h).placement &&
        (res.placement.Some? ==> Within(res.placement.value, c1.rect))
  {
    InsertSound(c0, w, h);
    InsertSound(c1, w, h);
  }

  /** Once an image has filled a leaf exactly, that leaf takes nothing
      more: a second image of the same size is refused. */
  lemma ExactFitConsumesLeaf(r: Rect, w: Dim, h: Dim)
    requires r.w == w && r.h == h
    ensures Insert(Leaf(r, false), w, h).placement == Some(r)
    ensures Insert(Insert(Leaf(r, false), w, h).node, w, h).placement.None?
  {
  }

  /** A 100x100 canvas holding one 60x60 image in its corner, with free
      strips of 40x60 and 100x40 beside and below it. */
  function SixtyTree(): Node
  {
    Split(Rect(0, 0, 100, 100),
      Split(Rect(0, 0, 100, 60), Leaf(Rect(0, 0, 60, 60), true), Leaf(Rect(60, 0, 40, 60), false)),
      Leaf(Rect(0, 60, 100, 40), false))
  }

  /** With this split rule two 60x60 images do not share a 100x100 canvas:
      the first leaves `SixtyTree`, whose free strips are too small for the
      second. */
  lemma SecondSixtySquareRefused()
    ensures var first := Insert(Leaf(Rect(0, 0, 100, 100), false), 60, 60);
      first.placement == Some(Rect(0, 0, 60, 60)) && first.node == SixtyTree()
    ensures Insert(SixtyTree(), 60, 60).placement.None?
  {
    var square := InsertFree(Rect(0, 0, 60, 60), 60, 60);
    assert square == Inserted(Some(Rect(0, 0, 60, 60)), Leaf(Rect(0, 0, 60, 60), true));
    assert SplitLeaf(Rect(0, 0, 100, 60), 60, 60) == (Rect(0, 0, 60, 60), Rect(60, 0, 40, 60));
    var strip := InsertFree(Rect(0, 0, 100, 60), 60, 60);
    assert strip.node == Split(Rect(0, 0, 100, 60), square.node, Leaf(Rect(60, 0, 40, 60), false));
    assert SplitLeaf(Rect(0, 0, 100, 100), 60, 60) == (Rect(0, 0, 100, 60), Rect(0, 60, 100, 40));
    var first := Insert(Leaf(Rect(0, 0, 100, 100), false), 60, 60);
    assert first.node == Split(Rect(0, 0, 100, 100), strip.node, Leaf(Rect(0, 60, 100, 40), false));
    assert Insert(strip.node, 60, 60).placement.None?;
  }

  /** The first half of `SecondSixtySquareRefused`. The sizes are
      parameters fixed by `requires` rather than literals, so that callers'
      solver contexts do not unfold `Insert` on constant arguments. */
  lemma SixtySquareSplitsCanvas(r: Rect, w: Dim, h: Dim)
    requires r == Rect(0, 0, 100, 100) && w == 60 && h == 60
    ensures Insert(Leaf(r, false), w, h) == Inserted(Some(Rect(0, 0, w, h)), SixtyTree())
  {
    SecondSixtySquareRefused();
  }

  /** The second half of `SecondSixtySquareRefused`, likewise. */
  lemma SixtyTreeIsFull(w: Dim, h: Dim)
    requires w == 60 && h == 60
    ensures Insert(SixtyTree(), w, h).placement.None?
  {
    SecondSixtySquareRefused();
  }
}
